=== FILE: README.md ===
# Start-up logic of a ScyllaDB load generator, modelled in Dafny

The program connects to a ScyllaDB cluster, optionally creates its schema, and
then runs a fleet of simulated devices that read and write through one shared
session. This project models the pure parts of that start-up path as total
functions over strings, integers and sequences, and proves what they do:

- **Consistency resolution** (`consistency.dfy`): the `CL` setting is upper-cased
  and matched against the ten level names; anything else, unset included, gives
  `LOCAL_QUORUM`.
- **Contact points and credentials** (`endpoints.dfy`): `":9042"` is appended to
  the whole `host` entry, which is then split on `,`. Only the last entry gets the
  port. User name and password are both read from the `user` entry, default `scylla`.
- **Schema migration** (`migration.dfy`): the DDL template is trimmed and its
  newlines become spaces. `<RF>` is then replaced by the `RF` setting, default `"1"`.
  The text is split on `;`, each fragment gets its `;` back, and fragments that
  start with `--` or are empty are dropped. The rest are sent in order, stopping at
  the first failure. A per-statement oracle `exec(k, statement)` gives the database's answer.
- **Connection builder** (`connection.dfy`): the settings of each connection
  attempt, retrying until an attempt succeeds, and the optional migration afterwards.
- **Options** (`options.dfy`): command-line defaults, the database configuration
  map, the read/write ratio check and the `MIGRATE` flag.
- **Fleet** (`fleet.dfy`): one task per simulator. Their completions are
  aggregated as `try_collect` and then `collect` do it.
- **Start-up** (`startup.dfy`): the order in which `main` does all of the above.
- `text.dfy` holds the string operations (upper-casing, `trim`, `split`, `replace`)
  with their round-trip and replacement lemmas. `wrappers.dfy` holds `Option`,
  `Outcome` and `Result`.

Inputs that the program reads from its surroundings are parameters here:
- the environment is a `map<string, string>`;
- the DDL template is a string;
- the fate of each connection attempt is a `seq<bool>`;
- the migration executor is a function;
- the simulators' completions are a sequence in completion order.

Behaviours of the code worth knowing, each proved:
- A simulator that returns an error does not stop the fleet at once.
  `try_collect` only short-circuits on a task *join* error. Simulator results are
  inspected only after every task has completed (`Fleet.AggregateWaitsForAll`).
- Newlines are flattened before the `--` test, so comment *lines* are not what
  gets skipped. A fragment that opens with a comment line is dropped whole, and
  the statement that followed the comment in that fragment goes with it
  (`Migration.CommentSwallowsStatement`). A comment written after a `;` starts
  with a space, so it is sent (`Migration.TrailingCommentIsSent`).
- User name and password are both read from the `user` entry
  (`Endpoints.ReadCredentials`); the `password` entry is never read.
- The back-off never runs out, so the builder retries for ever and never
  reports a connection error. The only builder error that reaches `main` is a
  migration failure, and there `expect` panics.

Two natural-sounding claims are false as stated. For the first the model proves the exact shape; for the second it proves a sufficient condition and a counterexample:
- "Only the last contact point ends with `:9042`" fails when the host text
  already carries ports. `Endpoints.HostnamesShape` states the exact shape.
- "An `RF` value without a newline or `<RF>` leaves neither in the schema text"
  fails for the empty value: `<<RF>RF>` becomes `<RF>`
  (`Migration.EmptyReplicationFactorLeavesPlaceholder`). A sufficient condition,
  not a necessary one, is a non-empty value that contains none of `<`, `R`, `F`,
  `>` (`Migration.PrepareSchema`). Values such as `3R` or `<x` break it and still
  cannot form a new `<RF>`. The exact condition is not stated here.

## Model

| member | source | states |
|---|---|---|
| Consistency.Lookup | src/db/connection.rs:22-33 | an upper-cased text names a level exactly when it is that level's name; otherwise none |
| Consistency.Resolve | src/db/connection.rs:20-34 | the level whose name equals the upper-cased `CL` value; LOCAL_QUORUM when no name matches, including unset |
| Consistency.ResolveCharacterization | src/db/connection.rs:20-34 | resolving gives level l if and only if the upper-cased text is l's name, or l is LOCAL_QUORUM and the text names no level |
| Consistency.NamesDistinct | src/db/connection.rs:23-32 | the ten names are pairwise different, so every name picks one level |
| Consistency.ResolveAnyCase | src/db/connection.rs:20-32 | each name resolves to its own level, in upper and in lower case |
| Consistency.ResolveUpperInvariant | src/db/connection.rs:20-22 | resolution depends only on the upper-cased text |
| Consistency.ResolveDefault | src/db/connection.rs:20-34 | unset and empty `CL` give LOCAL_QUORUM |
| Endpoints.Hostnames | src/db/connection.rs:16 | the contact-point list is never empty, has one entry more than the host has commas, and its last entry ends with `:9042` |
| Endpoints.HostnamesShape | src/db/connection.rs:16 | every entry but the last is the host's comma-separated piece unchanged; the last piece gets `:9042`; joining with commas gives host plus `:9042` |
| Endpoints.HostnamesWithoutHost | src/db/connection.rs:16 | a missing host gives exactly `[":9042"]` |
| Endpoints.HostnamesSingleHost | src/db/connection.rs:16 | a comma-free host gives the single entry host plus `:9042` |
| Endpoints.ReadCredentials | src/db/connection.rs:17-18 | user name and password are equal, both the `user` entry or `scylla` when it is missing |
| Endpoints.PasswordAndPortIgnored | src/db/connection.rs:16-18 | changing or removing the `password` or `port` entry changes neither contact points nor credentials |
| Text.Upper | src/db/connection.rs:22 | `to_uppercase` keeps the length and maps every character on its own; ASCII letters, dotless i and long s become capitals, all else is unchanged (the same mapping serves `MIGRATE` at src/main.rs:63) |
| Text.UpperIdempotent | src/db/connection.rs:22 | upper-casing an already upper-cased text changes nothing |
| Text.UpperOfLowerName | src/main.rs:63-65 | a name made of capitals and underscores, such as `TRUE` or `LOCAL_QUORUM`, is its own upper case and is recovered from its lower-case spelling |
| Text.Trim | src/db/connection.rs:69 | `trim` gives the slice of the input that starts where the leading whitespace ends; the text before and after it is all Unicode whitespace, and the slice neither starts nor ends with whitespace |
| Text.TrimStart | src/db/connection.rs:69 | the leading-whitespace cut is a suffix of the input, everything cut is whitespace, and it does not start with whitespace |
| Text.TrimEnd | src/db/connection.rs:69 | the trailing-whitespace cut is a prefix of the input, everything cut is whitespace, and it does not end with whitespace |
| Text.Split | src/db/connection.rs:72 | `split` on one character never yields an empty list; what the fragments are is stated by `Text.SplitCount`, `Text.JoinSplit` and `Text.SplitJoin` |
| Text.SplitCount | src/db/connection.rs:16 | there is one fragment more than the text has separators |
| Text.SplitFragmentsLackSeparator | src/db/connection.rs:72 | no fragment contains the separator |
| Text.JoinSplit | src/db/connection.rs:16 | joining the fragments with the separator gives back the text |
| Text.SplitJoin | src/db/connection.rs:72 | splitting the join of separator-free parts gives back the parts |
| Text.Replace | src/db/connection.rs:70-71 | `replace` keeps the length when the replacement is as long as the pattern; what it produces is stated by `Text.ReplaceCharPointwise`, `Text.ReplaceAtFirstOccurrence` and `Text.ReplaceAbsent` |
| Text.ReplaceCharPointwise | src/db/connection.rs:70 | replacing one character by another changes exactly the positions holding it and keeps the length |
| Text.ReplaceAbsent | src/db/connection.rs:71 | a text without the pattern is returned unchanged |
| Text.ReplaceChars | src/db/connection.rs:71 | every character of the result comes from the input or from the replacement |
| Text.ReplaceRemovesPattern | src/db/connection.rs:71 | a non-empty replacement sharing no character with the pattern leaves no occurrence of the pattern |
| Migration.FlattenNewlines | src/db/connection.rs:69-70 | the flattened text has the trimmed template's length, a space wherever it had a newline and its character elsewhere |
| Migration.PrepareSchema | src/db/connection.rs:68-71 | in the trimmed, newline-flattened template the first `<RF>` becomes the `RF` value (default `1`), everything before it is kept and replacement carries on after it; a template without `<RF>` is sent as flattened; an `RF` value without a newline leaves no newline; a non-empty `RF` value sharing no character with `<RF>` leaves no `<RF>` |
| Text.ReplaceAtFirstOccurrence | src/db/connection.rs:71 | `str::replace` substitutes the leftmost occurrence first: text with no earlier occurrence is kept, the occurrence becomes the replacement, and replacement continues after it |
| Migration.DefaultPreparedIsClean | src/db/connection.rs:68-71 | with `RF` unset (factor `1`) the text has no newline and no `<RF>` |
| Migration.EmptyReplicationFactorLeavesPlaceholder | src/db/connection.rs:68-71 | an empty `RF` value can leave a `<RF>` behind |
| Migration.IssuedIff | src/db/connection.rs:73-74 | a fragment is sent if and only if it is non-empty and does not start with `--` (the length test is the emptiness test) |
| Migration.KeepStatements | src/db/connection.rs:72-74 | the kept statements are never more than the fragments and each passes the send test |
| Migration.KeepStatementsMembers | src/db/connection.rs:72-74 | every kept statement is a fragment with `;` appended, and every fragment passing the test is kept |
| Migration.KeepStatementsAppend | src/db/connection.rs:72-74 | keeping distributes over concatenation, so source order is preserved |
| Migration.Statements | src/db/connection.rs:72-74 | every statement the migration sends has at least two characters, ends with its only `;` and does not start with `--` |
| Migration.KeptStatementsShape | src/db/connection.rs:72-74 | when no fragment contains `;`, every kept statement is a non-comment that ends with its only `;` |
| Migration.CommentSwallowsStatement | src/db/connection.rs:70-74 | a fragment opening with `--` is dropped together with the statement that followed the comment |
| Migration.TrailingCommentIsSent | src/db/connection.rs:72-74 | a comment after a `;` begins with a space and is sent |
| Migration.RunUnique | src/db/connection.rs:72-81 | at most one stop-at-first-failure run fits a statement list and an executor |
| Migration.Execute | src/db/connection.rs:72-81 | the sent statements are a prefix of the list; without error all were sent and succeeded; with error the last sent failed with it and all before succeeded |
| Migration.RunMigration | src/db/connection.rs:72-81 | the fragment loop with its inline test and early return makes exactly the run of `Execute` over the kept statements |
| Connection.AttemptProfile | src/db/connection.rs:41-53 | each attempt prefers the `DATACENTER` entry, `datacenter1` when unset, routes token-aware without datacenter failover, and uses the resolved consistency level |
| Connection.FirstSuccess | src/db/connection.rs:40-65 | the index of the first successful attempt, or none when all fail |
| Connection.Builder | src/db/connection.rs:15-85 | the builder is still retrying exactly when no attempt succeeded, never makes more attempts than it is given, sends migration statements only when migration is enabled and a session exists, fails only in the migration, and opens the session on the split contact points with user name equal to password |
| Connection.BuilderRetriesUntilSuccess | src/db/connection.rs:38-65 | the builder is still retrying if and only if no attempt succeeded; otherwise it made exactly the attempts up to the first success |
| Connection.BuilderSessionSettings | src/db/connection.rs:40-62 | the session uses the split contact points, the `user` entry as both credentials, the `CL` level, token-aware routing preferring `DATACENTER` (default `datacenter1`) without datacenter failover |
| Connection.BuilderMigration | src/db/connection.rs:67-84 | no statement is sent unless migration is enabled; after success all kept statements were sent and succeeded; a failure stops at the failing statement and is the builder's error |
| Options.DefaultOpt | src/main.rs:17-39 | the default ratios pass both the exact and the wrapping ratio check, and the default user gives the credentials `scylla`/`scylla` |
| Options.DbConfig | src/main.rs:48-53 | the configuration map has exactly the keys host, port, user and password with the option values |
| Options.DbConfigAsRead | src/main.rs:48-53 | the builder sees the host option plus port split on commas and the user option as both credentials; port and password options make no difference |
| Options.WrappingRatioCheck | src/main.rs:55-59 | with wrapping `u8` addition the check passes if and only if the ratios sum to 100 or 356 |
| Options.WrappingRatioCheckAcceptsOverflow | src/main.rs:55 | the ratios 200 and 156 pass the wrapping check |
| Options.CheckRatio | src/main.rs:55-59 | start-up continues if and only if the ratios sum to exactly 100, and otherwise fails with the ratio message |
| Options.RatioChecksAgreeWithoutOverflow | src/main.rs:55 | when the sum fits in a `u8`, wrapping and exact checks agree |
| Options.ParseMigrate | src/main.rs:61-67 | migration is off if and only if the upper-cased `MIGRATE` value is `FALSE` |
| Options.MigrateOffInAnyCase | src/main.rs:61-67 | `false` spelled in any mix of letter cases disables migration |
| Options.MigrateFlagCases | src/main.rs:61-67 | unset, empty, `TRUE` and `true` enable migration; `false` and `FALSE` disable it |
| Options.DefaultsAccepted | src/main.rs:17-53 | the defaults run 30 simulators and give the builder the map `0.0.0.0`, `9042`, `scylla`, `asd`, whose single contact point is `0.0.0.0:9042` |
| Fleet.SpawnTasks | src/main.rs:80-86 | exactly `simulators` tasks, each with the same session and the same read and write ratios |
| Fleet.TryCollect | src/main.rs:87 | the first join error in completion order, or every simulator result in completion order |
| Fleet.CollectResults | src/main.rs:89 | success if and only if every result succeeded; otherwise the first failure |
| Fleet.Aggregate | src/main.rs:87-89 | the fleet is still running exactly when some task has not completed and no join error has been seen; a failure carries the error of some join error or some simulator |
| Fleet.AggregateSucceeds | src/main.rs:87-89 | the fleet succeeds if and only if every task completed and every simulator returned success |
| Fleet.AggregateJoinError | src/main.rs:87 | a join error fails the fleet with the first join error, whatever else happened |
| Fleet.AggregateWaitsForAll | src/main.rs:87-89 | without join errors the fleet is still running until all tasks completed, even after a simulator error |
| Fleet.AggregateSimulatorError | src/main.rs:87-89 | once all tasks completed without join errors, the fleet fails with the first simulator error |
| Startup.Startup | src/main.rs:43-95 | the builder runs if and only if the ratio check passes; a bad ratio is rejected before the builder runs and nothing is spawned; while the ratio sum fits in a `u8` the rejection agrees with the wrapping check as written; `MIGRATE=false` sends no migration; a migration failure panics; after connecting, exactly `simulators` identical tasks share the session and the fleet decides the status |

## Findings

| source | as written | input that shows it | evidently intended | confidence | as-written member | corrected member |
|---|---|---|---|---|---|---|
| src/main.rs:55 | `read_ratio + write_ratio` is a `u8` addition; a build without overflow checks wraps it modulo 256 before the comparison with 100 | read ratio 200, write ratio 156: 356 wraps to 100 and start-up continues | start-up continues only when the ratios sum to exactly 100 | medium, not executed; a build with overflow checks panics instead, which also stops start-up | Options.WrappingRatioCheck and Options.WrappingRatioCheckAcceptsOverflow | Options.CheckRatio |

`Startup.Startup` uses the corrected check.

## Left out

- Session construction is not modelled: `SessionBuilder`, `DefaultPolicy`, `ExecutionProfile` and the transport are library code. A session is recorded by the settings it was opened with.
- The retry delays are not modelled: `ExponentialBackoff::from_millis(500).max_delay(20 s)` is library timing. Each attempt's success is an input, and retrying continues while no attempt has succeeded.
- Environment and command-line parsing are not modelled: `env::var` and structopt are I/O. Their values are parameters. A non-Unicode environment value reads as unset.
- The DDL template is not modelled: `crate::db::ddl` is not part of this model. It is an input string.
- Task scheduling is not modelled: `tokio::spawn` and `FuturesUnordered` polling are concurrency. The completion order of the tasks is an input.
- The Ctrl-C handler, `process::exit(0)` and the final `select!` are not modelled: they are process control. After every simulator succeeds, the status is `AwaitingInterrupt`.
- `devices::simulator`, `util::logging` and the `info!`/`debug!` output are not part of this model.
- Startup.Startup: uses the corrected ratio check `Options.CheckRatio`, not the check as written. The two agree whenever the ratio sum is below 256, and the contract states that agreement. Above 255 the model rejects with the ratio message. The source instead panics on the overflow when built with overflow checks, or wraps the sum and continues when built without them (see Findings). Neither behaviour is modelled in `main`.
- Consistency.Resolve: `to_uppercase` is modelled as ASCII upper-casing, plus dotless i to `I` and long s to `S`. Those are the only characters outside ASCII whose upper case is a single ASCII letter. Other characters are left unchanged. Full Unicode mapping (ligatures expanding to several letters, for example) is not modelled. No such expansion can produce a level name, `TRUE` or `FALSE`.
- Options.ParseMigrate: uses the same upper-casing as Consistency.Resolve.
- Migration.IssuedIff: Rust's `len()` counts bytes and the model counts characters. Both make `len > 1` the same test as a non-empty fragment.
- Text.Trim: Unicode White_Space characters are written out as `char::is_whitespace` defines them.

=== FILE: connection.dfy ===
/**
 * The connection builder: contact points, credentials and consistency level
 * are derived from the configuration; connection attempts are repeated until
 * one succeeds; then, if enabled, the schema migration runs on the new session.
 */
module Connection {
  import opened Wrappers
  import opened Consistency
  import opened Endpoints
  import opened Migration

  /** The process environment, as the builder sees it: the same kind of
      string map as the configuration, read with `Get` (`env::var`). */
  type Env = Config

  const DefaultDatacenter: string := "datacenter1"

  /** The load-balancing policy each attempt is configured with. */
  datatype Policy = Policy(preferredDatacenter: string, tokenAware: bool, permitDcFailover: bool)

  /** The default execution profile: the policy and the consistency level. */
  datatype Profile = Profile(policy: Policy, consistency: Level)

  /** An established session, recorded by the settings it was opened with. */
  datatype Session = Session(knownNodes: seq<string>, user: string, passwd: string, profile: Profile)

  /** The profile of one connection attempt: datacenter-aware, token-aware
      routing without failover to other datacenters. */
  function AttemptProfile(env: Env, consistency: Level): (p: Profile)
    ensures p.policy.preferredDatacenter == (if "DATACENTER" in env then env["DATACENTER"] else DefaultDatacenter)
    ensures p.policy.tokenAware && !p.policy.permitDcFailover
    ensures p.consistency == consistency
  {
    Profile(Policy(Get(env, "DATACENTER").GetOr(DefaultDatacenter), true, false), consistency)
  }

  /** Index of the first successful attempt, if any. */
  function FirstSuccess(attempts: seq<bool>): (r: Option<nat>)
    ensures r.Some? ==> r.value < |attempts| && attempts[r.value]
    ensures r.Some? ==> forall j :: 0 <= j < r.value ==> !attempts[j]
    ensures r.None? ==> forall j :: 0 <= j < |attempts| ==> !attempts[j]
    decreases |attempts|
  {
    if |attempts| == 0 then None
    else if attempts[0] then Some(0)
    else
      match FirstSuccess(attempts[1..])
      case None => None
      case Some(k) => Some(k + 1)
  }

  /** Where the builder got to. `Retrying`: no attempt seen so far succeeded,
      and the unbounded back-off keeps retrying. */
  datatype BuildOutcome = Retrying | Connected(session: Session) | MigrationFailed(error: string)

  /** The builder's observable behaviour: how many connection attempts it made,
      which migration statements it sent, and how it ended. */
  datatype Build = Build(attemptsMade: nat, migration: seq<string>, outcome: BuildOutcome)

  /** `connection::builder`. `attempts[k]` says whether the `k`-th connection
      attempt succeeds; `exec` answers each migration statement. */
  function Builder(migrate: bool, cfg: Config, env: Env, ddl: string, attempts: seq<bool>, exec: Executor): (b: Build)
    ensures b.outcome.Retrying? <==> forall j :: 0 <= j < |attempts| ==> !attempts[j]
    ensures b.attemptsMade <= |attempts|
    ensures b.migration != [] ==> migrate && !b.outcome.Retrying?
    ensures b.outcome.MigrationFailed? ==> migrate
    ensures b.outcome.Connected? ==>
      b.outcome.session.knownNodes == Hostnames(cfg) && b.outcome.session.user == b.outcome.session.passwd
  {
    var nodes := Hostnames(cfg);
    var credentials := ReadCredentials(cfg);
    var consistency := Resolve(Get(env, "CL"));
    match FirstSuccess(attempts)
    case None => Build(|attempts|, [], Retrying)
    case Some(k) =>
      var session := Session(nodes, credentials.user, credentials.passwd, AttemptProfile(env, consistency));
      if !migrate then Build(k + 1, [], Connected(session))
      else
        var run := Execute(Statements(PrepareSchema(ddl, Get(env, "RF"))), exec);
        match run.error
        case Some(e) => Build(k + 1, run.issued, MigrationFailed(e))
        case None => Build(k + 1, run.issued, Connected(session))
  }

  /** Retrying stops at the first successful attempt; while none succeeds the
      builder sends nothing and is still retrying. */
  lemma BuilderRetriesUntilSuccess(migrate: bool, cfg: Config, env: Env, ddl: string, attempts: seq<bool>, exec: Executor)
    ensures var b := Builder(migrate, cfg, env, ddl, attempts, exec);
      && (b.outcome.Retrying? <==> forall j :: 0 <= j < |attempts| ==> !attempts[j])
      && (b.outcome.Retrying? ==> b.attemptsMade == |attempts| && b.migration == [])
      && (!b.outcome.Retrying? ==>
            && 0 < b.attemptsMade <= |attempts|
            && attempts[b.attemptsMade - 1]
            && forall j :: 0 <= j < b.attemptsMade - 1 ==> !attempts[j])
  {
    var first := FirstSuccess(attempts);
    assert first.None? <==> forall j :: 0 <= j < |attempts| ==> !attempts[j];
  }

  /** The session is opened with the comma-split contact points, with the
      `user` entry as both user name and password, with the consistency level
      `CL` names, and with token-aware routing restricted to the `DATACENTER`
      (default `datacenter1`). */
  lemma BuilderSessionSettings(migrate: bool, cfg: Config, env: Env, ddl: string, attempts: seq<bool>, exec: Executor)
    ensures var b := Builder(migrate, cfg, env, ddl, attempts, exec);
      b.outcome.Connected? ==>
        var s := b.outcome.session;
        && s.knownNodes == Hostnames(cfg)
        && |s.knownNodes| >= 1
        && s.user == s.passwd
        && s.user == (if "user" in cfg then cfg["user"] else "scylla")
        && s.profile.consistency == Resolve(Get(env, "CL"))
        && s.profile.policy.tokenAware
        && !s.profile.policy.permitDcFailover
        && s.profile.policy.preferredDatacenter ==
             (if "DATACENTER" in env then env["DATACENTER"] else DefaultDatacenter)
  {
  }

  /** Migration statements are sent only when migration is enabled and a
      session exists; then they are the kept statements of the prepared
      template, sent in order up to and including the first that fails, and a
      failure is the builder's error. */
  lemma BuilderMigration(migrate: bool, cfg: Config, env: Env, ddl: string, attempts: seq<bool>, exec: Executor)
    ensures var b := Builder(migrate, cfg, env, ddl, attempts, exec);
      var statements := Statements(PrepareSchema(ddl, Get(env, "RF")));
      && (!migrate ==> b.migration == [] && !b.outcome.MigrationFailed?)
      && (b.outcome.Connected? && migrate ==>
            && b.migration == statements
            && forall k :: 0 <= k < |statements| ==> exec(k, statements[k]).Pass?)
      && (b.outcome.MigrationFailed? ==>
            && migrate
            && 0 < |b.migration| <= |statements|
            && b.migration == statements[..|b.migration|]
            && exec(|b.migration| - 1, statements[|b.migration| - 1]) == Fail(b.outcome.error)
            && forall k :: 0 <= k < |b.migration| - 1 ==> exec(k, statements[k]).Pass?)
  {
    var statements := Statements(PrepareSchema(ddl, Get(env, "RF")));
    var run := Execute(statements, exec);
    assert IsRun(statements, exec, run);
    var b := Builder(migrate, cfg, env, ddl, attempts, exec);
    if FirstSuccess(attempts).Some? && migrate {
      assert b.migration == run.issued;
      assert b.outcome.MigrationFailed? <==> run.error.Some?;
    }
  }
}

=== FILE: consistency.dfy ===
/**
 * Consistency-level selection: the value of the `CL` environment variable,
 * upper-cased, picks one of the ten levels; anything else means LOCAL_QUORUM.
 */
module Consistency {
  import opened Wrappers
  import opened Text

  datatype Level =
    | One | Two | Three | Quorum | All
    | LocalQuorum | EachQuorum | Serial | LocalSerial | LocalOne

  /** The configuration spelling of each level. */
  function Name(l: Level): string {
    match l
    case One => "ONE"
    case Two => "TWO"
    case Three => "THREE"
    case Quorum => "QUORUM"
    case All => "ALL"
    case LocalQuorum => "LOCAL_QUORUM"
    case EachQuorum => "EACH_QUORUM"
    case Serial => "SERIAL"
    case LocalSerial => "LOCAL_SERIAL"
    case LocalOne => "LOCAL_ONE"
  }

  /** The level an already upper-cased text names, if any. */
  function Lookup(u: string): (r: Option<Level>)
    ensures r.Some? ==> Name(r.value) == u
    ensures r.None? ==> forall l: Level :: Name(l) != u
  {
    if u == "ONE" then Some(One)
    else if u == "TWO" then Some(Two)
    else if u == "THREE" then Some(Three)
    else if u == "QUORUM" then Some(Quorum)
    else if u == "ALL" then Some(All)
    else if u == "LOCAL_QUORUM" then Some(LocalQuorum)
    else if u == "EACH_QUORUM" then Some(EachQuorum)
    else if u == "SERIAL" then Some(Serial)
    else if u == "LOCAL_SERIAL" then Some(LocalSerial)
    else if u == "LOCAL_ONE" then Some(LocalOne)
    else None
  }

  /** Resolves the `CL` setting; an unset variable reads as the empty text.
      The result is the level whose name equals the upper-cased setting, and
      LOCAL_QUORUM when no name does. */
  function Resolve(cl: Option<string>): (r: Level)
    ensures forall l: Level :: Upper(cl.GetOr("")) == Name(l) ==> r == l
    ensures (forall l: Level :: Upper(cl.GetOr("")) != Name(l)) ==> r == LocalQuorum
  {
    Lookup(Upper(cl.GetOr(""))).GetOr(LocalQuorum)
  }

  /** Distinct levels have distinct names, so the resolution above is unambiguous. */
  lemma NamesDistinct(a: Level, b: Level)
    requires a != b
    ensures Name(a) != Name(b)
  {
  }

  /** Resolution is exactly: the named level when the upper-cased text is a name,
      LOCAL_QUORUM otherwise. */
  lemma ResolveCharacterization(s: string, l: Level)
    ensures Resolve(Some(s)) == l <==>
      (Upper(s) == Name(l) || (l == LocalQuorum && forall m: Level :: Upper(s) != Name(m)))
  {
  }

  /** Every name resolves to its own level whatever its letter case. */
  lemma ResolveAnyCase(l: Level)
    ensures Resolve(Some(Name(l))) == l
    ensures Resolve(Some(Lower(Name(l)))) == l
  {
    assert IsUpperName(Name(l));
    UpperOfLowerName(Name(l));
  }

  /** Resolution depends only on the upper-cased text. */
  lemma ResolveUpperInvariant(s: string)
    ensures Resolve(Some(s)) == Resolve(Some(Upper(s)))
  {
    UpperIdempotent(s);
  }

  /** An unset or empty `CL` gives LOCAL_QUORUM. */
  lemma ResolveDefault()
    ensures Resolve(None) == LocalQuorum
    ensures Resolve(Some("")) == LocalQuorum
  {
    assert Upper("") == "";
  }
}

=== FILE: endpoints.dfy ===
/**
 * How the connection builder reads the database configuration map: the
 * contact-point list built from the `host` entry, and the credentials.
 */
module Endpoints {
  import opened Wrappers
  import opened Text

  /** The configuration map handed to the builder (`host`, `port`, `user`, `password`). */
  type Config = map<string, string>

  function Get(cfg: Config, key: string): Option<string> {
    if key in cfg then Some(cfg[key]) else None
  }

  /** The native-protocol port appended to the host text. */
  const Port: string := ":9042"

  /** The contact points: the `host` entry (empty when missing) with `":9042"`
      appended to the whole text, then split on commas. The list is never empty,
      has one entry more than the host has commas, and its last entry ends with
      the port. */
  function Hostnames(cfg: Config): (r: seq<string>)
    ensures |r| >= 1
    ensures |r| == Count(Get(cfg, "host").GetOr(""), ',') + 1
    ensures EndsWith(r[|r| - 1], Port)
  {
    var host := Get(cfg, "host").GetOr("");
    SplitAppend(host, Port, ',');
    SplitCount(host, ',');
    var r := Split(host + Port, ',');
    assert r[|r| - 1] == Split(host, ',')[|Split(host, ',')| - 1] + Port;
    r
  }

  /** Only the last contact point carries the port: every other entry is the
      corresponding comma-separated piece of the host text, unchanged. Joining
      the entries with commas gives back the host text followed by the port. */
  lemma HostnamesShape(cfg: Config)
    ensures var host := Get(cfg, "host").GetOr("");
      var pieces := Split(host, ',');
      var r := Hostnames(cfg);
      && |r| == |pieces|
      && r[..|r| - 1] == pieces[..|pieces| - 1]
      && r[|r| - 1] == pieces[|pieces| - 1] + Port
      && Join(r, ',') == host + Port
  {
    var host := Get(cfg, "host").GetOr("");
    SplitAppend(host, Port, ',');
    JoinSplit(host + Port, ',');
    var a := Split(host, ',');
    var r := Hostnames(cfg);
    assert r == a[..|a| - 1] + [a[|a| - 1] + Port];
    assert r[..|r| - 1] == a[..|a| - 1];
  }

  /** A missing host gives the single contact point `":9042"`. */
  lemma HostnamesWithoutHost(cfg: Config)
    requires "host" !in cfg
    ensures Hostnames(cfg) == [Port]
  {
    assert "" + Port == Port;
    SplitOfSeparatorFree(Port, ',');
  }

  /** A comma-free host gives exactly one contact point, the host with the port. */
  lemma HostnamesSingleHost(cfg: Config)
    requires "host" in cfg && ',' !in cfg["host"]
    ensures Hostnames(cfg) == [cfg["host"] + Port]
  {
    SplitOfSeparatorFree(cfg["host"] + Port, ',');
  }

  datatype Credentials = Credentials(user: string, passwd: string)

  /** Both the user name and the password are taken from the `user` entry,
      defaulting to `"scylla"`; the `password` entry plays no part. */
  function ReadCredentials(cfg: Config): (c: Credentials)
    ensures c.user == c.passwd
    ensures "user" in cfg ==> c.user == cfg["user"]
    ensures "user" !in cfg ==> c.user == "scylla"
  {
    Credentials(Get(cfg, "user").GetOr("scylla"), Get(cfg, "user").GetOr("scylla"))
  }

  /** Changing or removing the `password` or `port` entries changes neither the
      contact points nor the credentials. */
  lemma PasswordAndPortIgnored(cfg: Config, key: string, v: string)
    requires key == "password" || key == "port"
    ensures ReadCredentials(cfg[key := v]) == ReadCredentials(cfg)
    ensures ReadCredentials(cfg - {key}) == ReadCredentials(cfg)
    ensures Hostnames(cfg[key := v]) == Hostnames(cfg)
    ensures Hostnames(cfg - {key}) == Hostnames(cfg)
  {
    assert Get(cfg[key := v], "host") == Get(cfg, "host");
    assert Get(cfg - {key}, "host") == Get(cfg, "host");
  }
}

=== FILE: fleet.dfy ===
/**
 * The simulator fleet: one task per simulator, all sharing the session and
 * the ratios, and the aggregation of their completions in the order they
 * complete (first `try_collect` over the join results, then `collect` over the
 * simulators' own results).
 */
module Fleet {
  import opened Wrappers
  import opened Options
  import opened Connection

  /** What each spawned simulator task is given. */
  datatype Task = Task(session: Session, readRatio: u8, writeRatio: u8)

  /** Spawns `simulators` tasks over the range `0..simulators`. */
  method SpawnTasks(simulators: u16, session: Session, read: u8, write: u8) returns (tasks: seq<Task>)
    ensures |tasks| == simulators as int
    ensures forall i :: 0 <= i < |tasks| ==> tasks[i].session == session
    ensures forall i :: 0 <= i < |tasks| ==> tasks[i].readRatio == read && tasks[i].writeRatio == write
  {
    tasks := [];
    var i := 0;
    while i < simulators as int
      invariant 0 <= i <= simulators as int
      invariant |tasks| == i
      invariant forall j :: 0 <= j < i ==> tasks[j] == Task(session, read, write)
    {
      tasks := tasks + [Task(session, read, write)];
      i := i + 1;
    }
  }

  /** How a task completed: its join failed (it panicked or was cancelled), or
      the simulator returned a result. */
  datatype Completion = JoinError(reason: string) | Finished(result: Outcome<string>)

  /** `try_collect` over the join results in completion order: the first join
      error, or else every simulator result in the same order. */
  function TryCollect(completions: seq<Completion>): (r: Result<seq<Outcome<string>>, string>)
    ensures r.Failure? ==>
      exists i :: 0 <= i < |completions| && completions[i] == JoinError(r.error)
        && forall j :: 0 <= j < i ==> completions[j].Finished?
    ensures r.Success? ==>
      && |r.value| == |completions|
      && forall i :: 0 <= i < |completions| ==> completions[i] == Finished(r.value[i])
    decreases |completions|
  {
    if |completions| == 0 then Success([])
    else
      match completions[0]
      case JoinError(e) => Failure(e)
      case Finished(o) =>
        match TryCollect(completions[1..])
        case Failure(e) => Failure(e)
        case Success(rest) => Success([o] + rest)
  }

  /** `collect` into a `Result`: the first failure, or success when every
      result succeeded. */
  function CollectResults(results: seq<Outcome<string>>): (r: Outcome<string>)
    ensures r.Pass? <==> forall i :: 0 <= i < |results| ==> results[i].Pass?
    ensures r.Fail? ==>
      exists i :: 0 <= i < |results| && results[i] == Fail(r.error)
        && forall j :: 0 <= j < i ==> results[j].Pass?
    decreases |results|
  {
    if |results| == 0 then Pass
    else if results[0].Fail? then results[0]
    else CollectResults(results[1..])
  }

  /** The fleet as seen from `main`. */
  datatype FleetStatus = Running | AllSucceeded | Failed(error: string)

  /** The fleet's state once `completions` (in completion order) have been
      observed out of `total` tasks. A join error ends the wait at once; a
      simulator's error is only reported after every task has completed. */
  function Aggregate(total: nat, completions: seq<Completion>): (r: FleetStatus)
    requires |completions| <= total
    ensures r.Running? <==> |completions| < total && NoJoinError(completions)
    ensures r.Failed? ==>
      exists i :: 0 <= i < |completions| &&
        (completions[i] == JoinError(r.error) || completions[i] == Finished(Fail(r.error)))
  {
    match TryCollect(completions)
    case Failure(e) => Failed(e)
    case Success(results) =>
      if |completions| < total then Running
      else
        match CollectResults(results)
        case Fail(e) => Failed(e)
        case Pass => AllSucceeded
  }

  predicate NoJoinError(completions: seq<Completion>) {
    forall i :: 0 <= i < |completions| ==> completions[i].Finished?
  }

  /** The fleet succeeds exactly when every task completed and every
      simulator returned success. */
  lemma AggregateSucceeds(total: nat, completions: seq<Completion>)
    requires |completions| <= total
    ensures Aggregate(total, completions) == AllSucceeded <==>
      |completions| == total && forall i :: 0 <= i < |completions| ==> completions[i] == Finished(Pass)
  {
  }

  /** A join error makes the fleet fail with the first join error in
      completion order, whatever the other tasks did. */
  lemma AggregateJoinError(total: nat, completions: seq<Completion>, i: nat)
    requires |completions| <= total
    requires i < |completions| && completions[i].JoinError?
    requires forall j :: 0 <= j < i ==> completions[j].Finished?
    ensures Aggregate(total, completions) == Failed(completions[i].reason)
  {
  }

  /** Without join errors, the fleet keeps running until every task has
      completed, even when a simulator has already returned an error. */
  lemma AggregateWaitsForAll(total: nat, completions: seq<Completion>)
    requires |completions| < total
    requires NoJoinError(completions)
    ensures Aggregate(total, completions) == Running
  {
  }

  /** Once every task has completed without a join error, the fleet fails with
      the first simulator error in completion order. */
  lemma AggregateSimulatorError(total: nat, completions: seq<Completion>, i: nat)
    requires |completions| == total
    requires NoJoinError(completions)
    requires i < |completions| && completions[i].result.Fail?
    requires forall j :: 0 <= j < i ==> completions[j].result.Pass?
    ensures Aggregate(total, completions) == Failed(completions[i].result.error)
  {
  }
}

=== FILE: migration.dfy ===
/**
 * The schema migration: the DDL template is trimmed, its newlines flattened to
 * spaces and its `<RF>` placeholder filled in; the text is cut on `;`, each
 * fragment gets its `;` back, comment and empty fragments are skipped, and the
 * rest are executed in order, stopping at the first failure.
 */
module Migration {
  import opened Wrappers
  import opened Text

  const Placeholder: string := "<RF>"

  /** Replication factor used when `RF` is unset. */
  const DefaultReplicationFactor: string := "1"

  /** The migration text for a template `ddl` and the `RF` setting `rf`. In the
      trimmed, newline-flattened template the first `<RF>` becomes the
      replication factor and replacement carries on after it; a template
      without `<RF>` is left as flattened. A replication factor without a
      newline leaves no newline in the text, and a non-empty one sharing no
      character with `<RF>` leaves no placeholder. */
  function PrepareSchema(ddl: string, rf: Option<string>): (schema: string)
    ensures var flat := Replace(Trim(ddl), "\n", " ");
      !Contains(flat, Placeholder) ==> schema == flat
    ensures var flat := Replace(Trim(ddl), "\n", " "); var value := rf.GetOr(DefaultReplicationFactor);
      forall i :: OccursAt(flat, Placeholder, i) && !Contains(flat[..i + |Placeholder| - 1], Placeholder) ==>
        schema == flat[..i] + value + Replace(flat[i + |Placeholder|..], Placeholder, value)
    ensures '\n' !in rf.GetOr(DefaultReplicationFactor) ==> '\n' !in schema
    ensures |rf.GetOr(DefaultReplicationFactor)| > 0 && Disjoint(rf.GetOr(DefaultReplicationFactor), Placeholder)
      ==> !Contains(schema, Placeholder)
  {
    PreparationSteps(ddl, rf.GetOr(DefaultReplicationFactor));
    Replace(Replace(Trim(ddl), "\n", " "), Placeholder, rf.GetOr(DefaultReplicationFactor))
  }

  /** The newline flattening step: the trimmed template with every newline
      turned into a space, character for character. */
  lemma FlattenNewlines(ddl: string)
    ensures var t := Trim(ddl); var f := Replace(t, "\n", " ");
      && |f| == |t|
      && (forall i :: 0 <= i < |t| ==> f[i] == (if t[i] == '\n' then ' ' else t[i]))
      && '\n' !in f
  {
    ReplaceCharPointwise(Trim(ddl), '\n', ' ');
  }

  /** The three preparation steps fill the placeholders and keep the text free
      of newlines and placeholders under the conditions `PrepareSchema` states. */
  lemma PreparationSteps(ddl: string, value: string)
    ensures var flat := Replace(Trim(ddl), "\n", " "); var schema := Replace(flat, Placeholder, value);
      && (!Contains(flat, Placeholder) ==> schema == flat)
      && (forall i :: OccursAt(flat, Placeholder, i) && !Contains(flat[..i + |Placeholder| - 1], Placeholder) ==>
            schema == flat[..i] + value + Replace(flat[i + |Placeholder|..], Placeholder, value))
      && ('\n' !in value ==> '\n' !in schema)
      && (|value| > 0 && Disjoint(value, Placeholder) ==> !Contains(schema, Placeholder))
  {
    var flat := Replace(Trim(ddl), "\n", " ");
    if !Contains(flat, Placeholder) {
      ReplaceAbsent(flat, Placeholder, value);
    }
    forall i | OccursAt(flat, Placeholder, i) && !Contains(flat[..i + |Placeholder| - 1], Placeholder)
      ensures Replace(flat, Placeholder, value) ==
        flat[..i] + value + Replace(flat[i + |Placeholder|..], Placeholder, value)
    {
      FirstPlaceholderFilled(flat, value, i);
    }
    FlattenNewlines(ddl);
    if '\n' !in value && '\n' in Replace(flat, Placeholder, value) {
      ReplaceChars(flat, Placeholder, value, '\n');
    }
    if |value| > 0 && Disjoint(value, Placeholder) {
      ReplaceRemovesPattern(flat, Placeholder, value);
    }
  }

  /** The first `<RF>` at index `i` is filled with `value`. */
  lemma FirstPlaceholderFilled(flat: string, value: string, i: int)
    requires OccursAt(flat, Placeholder, i)
    requires !Contains(flat[..i + |Placeholder| - 1], Placeholder)
    ensures Replace(flat, Placeholder, value) ==
      flat[..i] + value + Replace(flat[i + |Placeholder|..], Placeholder, value)
  {
    var a := flat[..i];
    var b := flat[i + |Placeholder|..];
    assert flat == a + Placeholder + b;
    assert a + Placeholder[..|Placeholder| - 1] == flat[..i + |Placeholder| - 1];
    ReplaceAtFirstOccurrence(a, Placeholder, b, value);
  }

  /** With `RF` unset the text has neither newlines nor placeholders. */
  lemma DefaultPreparedIsClean(ddl: string)
    ensures '\n' !in PrepareSchema(ddl, None)
    ensures !Contains(PrepareSchema(ddl, None), Placeholder)
  {
  }

  /** An empty `RF` value can leave a placeholder behind: replacing the inner
      `<RF>` of `<<RF>RF>` by nothing closes up a new one. */
  lemma EmptyReplicationFactorLeavesPlaceholder()
    ensures Contains(PrepareSchema("<<RF>RF>", Some("")), Placeholder)
  {
    TrimmedAndFlattenedSample();
    RemovedPlaceholderSample();
    FilledTemplate("<<RF>RF>", "", Placeholder);
    assert OccursAt(Placeholder, Placeholder, 0);
  }

  /** Once the template survives trimming and flattening unchanged, preparing
      it is filling its placeholders. */
  lemma FilledTemplate(ddl: string, value: string, filled: string)
    requires Replace(Trim(ddl), "\n", " ") == ddl
    requires Replace(ddl, Placeholder, value) == filled
    ensures PrepareSchema(ddl, Some(value)) == filled
  {
  }

  lemma TrimmedAndFlattenedSample()
    ensures Replace(Trim("<<RF>RF>"), "\n", " ") == "<<RF>RF>"
  {
    TrimmedSample();
    FlattenedSample();
  }

  lemma TrimmedSample()
    ensures Trim("<<RF>RF>") == "<<RF>RF>"
  {
    var t := "<<RF>RF>";
    assert !IsWhitespace(t[0]);
    assert TrimStart(t) == t;
    assert !IsWhitespace(t[|t| - 1]);
  }

  lemma FlattenedSample()
    ensures Replace("<<RF>RF>", "\n", " ") == "<<RF>RF>"
  {
    var t := "<<RF>RF>";
    assert '\n' !in t;
    ContainsChar(t, '\n');
    ReplaceAbsent(t, "\n", " ");
  }

  lemma RemovedPlaceholderSample()
    ensures Replace("<<RF>RF>", Placeholder, "") == "<RF>"
  {
    var t := "<<RF>RF>";
    assert t[..4][1] == '<' && Placeholder[1] == 'R';
    assert t[..4] != Placeholder;
    assert Replace(t, Placeholder, "") == "<" + Replace(t[1..], Placeholder, "");
    assert t[1..] == "<RF>RF>";
    assert t[1..][..4] == Placeholder;
    assert t[1..][4..] == "RF>";
    assert Replace("RF>", Placeholder, "") == "RF>";
  }

  /** A statement is sent when it does not start with `--` and is longer than
      the bare `;`. */
  predicate Issued(query: string) {
    !StartsWith(query, "--") && |query| > 1
  }

  /** The length test is the same as asking for a non-empty fragment. */
  lemma IssuedIff(fragment: string)
    ensures Issued(fragment + ";") <==> |fragment| > 0 && !StartsWith(fragment, "--")
  {
    var q := fragment + ";";
    if |fragment| >= 2 {
      assert q[..2] == fragment[..2];
    } else if |fragment| == 1 {
      assert q[1] == ';';
    }
  }

  /** The fragments that are sent, each with `;` re-appended, in order. */
  function KeepStatements(fragments: seq<string>): (r: seq<string>)
    ensures |r| <= |fragments|
    ensures forall k :: 0 <= k < |r| ==> Issued(r[k])
    decreases |fragments|
  {
    if |fragments| == 0 then []
    else
      var query := fragments[0] + ";";
      var rest := KeepStatements(fragments[1..]);
      if Issued(query) then [query] + rest else rest
  }

  /** A statement is kept exactly when it is some fragment, with `;`, that passes the test. */
  lemma {:induction false} KeepStatementsMembers(fragments: seq<string>)
    ensures forall k :: 0 <= k < |KeepStatements(fragments)| ==>
      exists i :: 0 <= i < |fragments| && KeepStatements(fragments)[k] == fragments[i] + ";"
    ensures forall i :: 0 <= i < |fragments| && Issued(fragments[i] + ";") ==>
      fragments[i] + ";" in KeepStatements(fragments)
    decreases |fragments|
  {
    if |fragments| > 0 {
      KeepStatementsMembers(fragments[1..]);
      var rest := KeepStatements(fragments[1..]);
      var r := KeepStatements(fragments);
      forall k | 0 <= k < |r|
        ensures exists i :: 0 <= i < |fragments| && r[k] == fragments[i] + ";"
      {
        if Issued(fragments[0] + ";") && k == 0 {
          assert r[0] == fragments[0] + ";";
        } else {
          var k' := if Issued(fragments[0] + ";") then k - 1 else k;
          assert r[k] == rest[k'];
          var i :| 0 <= i < |fragments| - 1 && rest[k'] == fragments[1..][i] + ";";
          assert r[k] == fragments[i + 1] + ";";
        }
      }
      forall i | 0 <= i < |fragments| && Issued(fragments[i] + ";")
        ensures fragments[i] + ";" in r
      {
        if Issued(fragments[0] + ";") {
          assert r == [fragments[0] + ";"] + rest;
        } else {
          assert r == rest;
        }
        if i > 0 {
          assert fragments[1..][i - 1] == fragments[i];
          assert fragments[i] + ";" in rest;
        }
      }
    } else {
      assert KeepStatements(fragments) == [];
    }
  }

  /** Keeping distributes over concatenation, so source order is preserved. */
  lemma {:induction false} KeepStatementsAppend(a: seq<string>, b: seq<string>)
    ensures KeepStatements(a + b) == KeepStatements(a) + KeepStatements(b)
    decreases |a|
  {
    if |a| > 0 {
      assert (a + b)[0] == a[0];
      assert (a + b)[1..] == a[1..] + b;
      KeepStatementsAppend(a[1..], b);
    } else {
      assert a + b == b;
    }
  }

  /** The statements the migration sends for a prepared text. Each is at
      least two characters long, ends with its only `;` and is not a comment. */
  function Statements(schema: string): (r: seq<string>)
    ensures forall k :: 0 <= k < |r| ==>
      && |r[k]| >= 2 && r[k][|r[k]| - 1] == ';' && ';' !in r[k][..|r[k]| - 1] && !StartsWith(r[k], "--")
  {
    SplitFragmentsLackSeparator(schema, ';');
    KeptStatementsShape(Split(schema, ';'));
    KeepStatements(Split(schema, ';'))
  }

  /** Kept statements of `;`-free fragments end with their only `;`. */
  lemma KeptStatementsShape(fragments: seq<string>)
    requires NoneContain(fragments, ';')
    ensures forall k :: 0 <= k < |KeepStatements(fragments)| ==>
      var q := KeepStatements(fragments)[k];
      && |q| >= 2 && q[|q| - 1] == ';' && ';' !in q[..|q| - 1] && !StartsWith(q, "--")
  {
    KeepStatementsMembers(fragments);
    forall k | 0 <= k < |KeepStatements(fragments)|
      ensures var q := KeepStatements(fragments)[k]; q[|q| - 1] == ';' && ';' !in q[..|q| - 1]
    {
      var q := KeepStatements(fragments)[k];
      var i :| 0 <= i < |fragments| && q == fragments[i] + ";";
      assert q[..|q| - 1] == fragments[i];
    }
  }

  /** A fragment that opens with a comment line is dropped whole: the newline
      that ended the comment is already a space, so the statement after it in
      the same fragment is never sent. */
  lemma CommentSwallowsStatement(comment: string, statement: string, rest: string)
    requires ';' !in comment && ';' !in statement
    ensures Statements("--" + comment + " " + statement + ";" + rest) == Statements(rest)
  {
    var head := "--" + comment + " " + statement;
    assert ';' !in head;
    assert "--" + comment + " " + statement + ";" + rest == head + [';'] + rest;
    SplitPrefixThenSeparator(head, ';', rest);
    assert StartsWith(head + ";", "--");
  }

  /** A comment placed after a `;` begins with a space, so it is sent, together
      with the statement it precedes in the same fragment. */
  lemma TrailingCommentIsSent(comment: string, rest: string)
    requires ';' !in comment
    ensures Statements(" --" + comment + ";" + rest) == [" --" + comment + ";"] + Statements(rest)
  {
    var head := " --" + comment;
    assert ';' !in head;
    assert " --" + comment + ";" + rest == head + [';'] + rest;
    SplitPrefixThenSeparator(head, ';', rest);
    assert (head + ";")[0] == ' ';
  }

  /** The database's answer to the `k`-th statement sent. */
  type Executor = (nat, string) -> Outcome<string>

  /** What the migration sent and the error it stopped on, if any. */
  datatype MigrationRun = MigrationRun(issued: seq<string>, error: Option<string>)

  /** `run` is a sequential run of `statements` against `exec` that stops at
      the first failure: it sent a prefix, every statement but a failing last
      one succeeded, and without an error every statement was sent. */
  predicate IsRun(statements: seq<string>, exec: Executor, run: MigrationRun) {
    var n := |run.issued|;
    && n <= |statements|
    && run.issued == statements[..n]
    && (run.error.None? ==>
          n == |statements| && forall k :: 0 <= k < n ==> exec(k, statements[k]).Pass?)
    && (run.error.Some? ==>
          && n > 0
          && exec(n - 1, statements[n - 1]) == Fail(run.error.value)
          && forall k :: 0 <= k < n - 1 ==> exec(k, statements[k]).Pass?)
  }

  /** At most one run fits a statement list and an executor. */
  lemma RunUnique(statements: seq<string>, exec: Executor, a: MigrationRun, b: MigrationRun)
    requires IsRun(statements, exec, a) && IsRun(statements, exec, b)
    ensures a == b
  {
  }

  /** The executor as seen by the statements after the first. */
  function Shift(exec: Executor): Executor {
    (k: nat, q: string) => exec(k + 1, q)
  }

  /** A successful first statement followed by a run of the others is a run. */
  lemma PassThenRun(statements: seq<string>, exec: Executor, rest: MigrationRun)
    requires |statements| > 0 && exec(0, statements[0]).Pass?
    requires IsRun(statements[1..], Shift(exec), rest)
    ensures IsRun(statements, exec, MigrationRun([statements[0]] + rest.issued, rest.error))
  {
    var n := |rest.issued| + 1;
    var issued := [statements[0]] + rest.issued;
    assert issued == statements[..n];
    forall k | 1 <= k < |statements|
      ensures exec(k, statements[k]) == Shift(exec)(k - 1, statements[1..][k - 1])
    {
    }
  }

  /** Sends the statements in order and stops at the first failure. */
  function Execute(statements: seq<string>, exec: Executor): (r: MigrationRun)
    ensures IsRun(statements, exec, r)
    decreases |statements|
  {
    if |statements| == 0 then MigrationRun([], None)
    else
      match exec(0, statements[0])
      case Fail(e) => MigrationRun([statements[0]], Some(e))
      case Pass =>
        var rest := Execute(statements[1..], Shift(exec));
        PassThenRun(statements, exec, rest);
        MigrationRun([statements[0]] + rest.issued, rest.error)
  }

  /** A loop that sent all of `statements`, each successfully, made a run. */
  lemma CompletedLoopIsRun(statements: seq<string>, exec: Executor, issued: seq<string>)
    requires statements == issued
    requires forall k :: 0 <= k < |issued| ==> exec(k, issued[k]).Pass?
    ensures Execute(statements, exec) == MigrationRun(issued, None)
  {
    RunUnique(statements, exec, MigrationRun(issued, None), Execute(statements, exec));
  }

  /** A loop that sent a prefix of `statements` whose last one failed made a run. */
  lemma AbortedLoopIsRun(statements: seq<string>, exec: Executor, issued: seq<string>, rest: seq<string>, e: string)
    requires statements == issued + rest && |issued| > 0
    requires forall k :: 0 <= k < |issued| - 1 ==> exec(k, issued[k]).Pass?
    requires exec(|issued| - 1, issued[|issued| - 1]) == Fail(e)
    ensures Execute(statements, exec) == MigrationRun(issued, Some(e))
  {
    assert statements[..|issued|] == issued;
    RunUnique(statements, exec, MigrationRun(issued, Some(e)), Execute(statements, exec));
  }

  /** The migration loop as written: one pass over the `;`-separated fragments,
      testing and sending each in turn and returning on the first error. Its
      run is the one `Execute` describes for the kept statements. */
  method RunMigration(schema: string, exec: Executor) returns (issued: seq<string>, error: Option<string>)
    ensures MigrationRun(issued, error) == Execute(Statements(schema), exec)
  {
    var fragments := Split(schema, ';');
    ghost var all := Statements(schema);
    assert all == KeepStatements(fragments[0..]) by { assert fragments[0..] == fragments; }
    issued, error := [], None;
    var j := 0;
    while j < |fragments|
      invariant 0 <= j <= |fragments|
      invariant all == issued + KeepStatements(fragments[j..])
      invariant forall k :: 0 <= k < |issued| ==> exec(k, issued[k]).Pass?
    {
      var query := fragments[j] + ";";
      assert fragments[j..][0] == fragments[j] && fragments[j..][1..] == fragments[j + 1..];
      if !StartsWith(query, "--") && |query| > 1 {
        ghost var rest := KeepStatements(fragments[j + 1..]);
        assert KeepStatements(fragments[j..]) == [query] + rest;
        var outcome := exec(|issued|, query);
        assert all == (issued + [query]) + rest;
        issued := issued + [query];
        if outcome.Fail? {
          error := Some(outcome.error);
          AbortedLoopIsRun(all, exec, issued, rest, outcome.error);
          return;
        }
      }
      j := j + 1;
    }
    assert fragments[j..] == [];
    CompletedLoopIsRun(all, exec, issued);
  }
}

=== FILE: options.dfy ===
/**
 * Start-up configuration: the command-line options with their defaults, the
 * database configuration map built from them, the read/write ratio check and
 * the `MIGRATE` flag.
 */
module Options {
  import opened Wrappers
  import opened Text
  import opened Endpoints

  newtype u8 = x: int | 0 <= x < 0x100
  newtype u16 = x: int | 0 <= x < 0x1_0000

  datatype Opt = Opt(
    readRatio: u8,
    writeRatio: u8,
    simulators: u16,
    dbHost: string,
    dbPort: string,
    dbUser: string,
    dbPassword: string)

  /** The options when none is given on the command line. They pass the ratio
      check either way it is compiled, and give the builder the credentials
      `scylla`/`scylla`. */
  function DefaultOpt(): (opt: Opt)
    ensures CheckRatio(opt.readRatio, opt.writeRatio).Pass?
    ensures WrappingRatioCheck(opt.readRatio, opt.writeRatio).Pass?
    ensures ReadCredentials(DbConfig(opt)) == Credentials("scylla", "scylla")
  {
    Opt(80, 20, 30, "0.0.0.0", "9042", "scylla", "asd")
  }

  /** The map handed to the connection builder: exactly the four database
      options under the keys `host`, `port`, `user` and `password`. */
  function DbConfig(opt: Opt): (cfg: Config)
    ensures cfg.Keys == {"host", "port", "user", "password"}
    ensures cfg["host"] == opt.dbHost && cfg["port"] == opt.dbPort
    ensures cfg["user"] == opt.dbUser && cfg["password"] == opt.dbPassword
  {
    map["host" := opt.dbHost, "port" := opt.dbPort, "user" := opt.dbUser, "password" := opt.dbPassword]
  }

  /** What the builder makes of the options: the contact points come from the
      host option with the port appended, both credentials are the user
      option, and the port and password options are never consulted. */
  lemma DbConfigAsRead(opt: Opt, port: string, password: string)
    ensures Hostnames(DbConfig(opt)) == Split(opt.dbHost + Port, ',')
    ensures ReadCredentials(DbConfig(opt)) == Credentials(opt.dbUser, opt.dbUser)
    ensures Hostnames(DbConfig(opt.(dbPort := port, dbPassword := password))) == Hostnames(DbConfig(opt))
    ensures ReadCredentials(DbConfig(opt.(dbPort := port, dbPassword := password))) == ReadCredentials(DbConfig(opt))
  {
  }

  const InvalidRatioMessage: string :=
    "Invalid ratio configuration. Sum of read_ratio and write_ratio must be 100."

  /** The ratio check as compiled without overflow checks: the `u8` sum wraps
      modulo 256 before it is compared with 100. */
  function WrappingRatioCheck(read: u8, write: u8): (o: Outcome<string>)
    ensures o.Pass? <==> read as int + write as int == 100 || read as int + write as int == 356
  {
    var sum := ((read as int + write as int) % 0x100) as u8;
    if sum != 100 then Fail(InvalidRatioMessage) else Pass
  }

  /** A pair that sums to 356 passes the wrapping check although it does not sum to 100. */
  lemma WrappingRatioCheckAcceptsOverflow()
    ensures WrappingRatioCheck(200, 156).Pass?
    ensures 200 + 156 != 100
  {
  }

  /** The ratio check as intended, and as a build with overflow checks behaves
      (an overflowing sum panics, which also stops start-up): start-up
      continues only when the two ratios sum to exactly 100. */
  function CheckRatio(read: u8, write: u8): (o: Outcome<string>)
    ensures o.Pass? <==> read as int + write as int == 100
    ensures o.Fail? ==> o.error == InvalidRatioMessage
  {
    if read as int + write as int != 100 then Fail(InvalidRatioMessage) else Pass
  }

  /** The two checks agree whenever the sum fits in a `u8`. */
  lemma RatioChecksAgreeWithoutOverflow(read: u8, write: u8)
    requires read as int + write as int < 0x100
    ensures WrappingRatioCheck(read, write) == CheckRatio(read, write)
  {
  }

  /** The `MIGRATE` setting: migration is disabled exactly when its upper-cased
      value is `FALSE`; unset, `TRUE` or anything else enables it. */
  function ParseMigrate(v: Option<string>): (migrate: bool)
    ensures !migrate <==> Upper(v.GetOr("")) == "FALSE"
  {
    match Upper(v.GetOr(""))
    case "TRUE" => true
    case "FALSE" => false
    case _ => true
  }

  /** `false` spelled in any mix of letter cases disables migration. */
  lemma MigrateOffInAnyCase(v: string)
    requires Lower(v) == "false"
    ensures !ParseMigrate(Some(v))
  {
    assert forall i :: 0 <= i < |v| ==> UpperChar(v[i]) == "FALSE"[i];
    assert Upper(v) == "FALSE";
  }

  /** Unset, empty, `TRUE` and `true` enable migration; `false` disables it. */
  lemma MigrateFlagCases()
    ensures ParseMigrate(None)
    ensures ParseMigrate(Some("")) && ParseMigrate(Some("TRUE")) && ParseMigrate(Some("true"))
    ensures !ParseMigrate(Some("false")) && !ParseMigrate(Some("FALSE"))
  {
    assert Upper("") == "";
    assert Upper("true") == "TRUE";
    assert Upper("TRUE") == "TRUE";
    assert Upper("false") == "FALSE";
    assert Upper("FALSE") == "FALSE";
  }

  /** The default options run 30 simulators and give the builder the map
      holding `0.0.0.0`, `9042`, `scylla` and `asd`, whose single contact
      point is `0.0.0.0:9042`. */
  lemma DefaultsAccepted()
    ensures DefaultOpt().simulators == 30
    ensures DbConfig(DefaultOpt()) ==
      map["host" := "0.0.0.0", "port" := "9042", "user" := "scylla", "password" := "asd"]
    ensures Hostnames(DbConfig(DefaultOpt())) == ["0.0.0.0:9042"]
  {
    var cfg := DbConfig(DefaultOpt());
    assert cfg["host"] == "0.0.0.0" && ',' !in cfg["host"];
    HostnamesSingleHost(cfg);
    assert cfg["host"] + Port == "0.0.0.0:9042";
  }
}

=== FILE: startup.dfy ===
/**
 * The start-up sequence of `main`: build the database configuration, check the
 * ratios, read the migration flag, connect (migrating if enabled), spawn the
 * simulators and wait on their completions.
 */
module Startup {
  import opened Wrappers
  import opened Options
  import opened Connection
  import opened Fleet
  import opened Migration
  import opened Endpoints
  
  /** Where `main` stands. `RatioRejected`: `main` returned the ratio error.
      `BuildPanicked`: the builder failed and `expect` panicked. `Connecting`:
      the builder is still retrying. `FleetRunning`: simulators are running.
      `FleetFailed`: `main` returned a fleet error. `AwaitingInterrupt`: every
      simulator finished successfully and `main` waits for Ctrl-C. */
  datatype Status =
    | RatioRejected(message: string)
    | BuildPanicked(message: string)
    | Connecting
    | FleetRunning
    | FleetFailed(error: string)
    | AwaitingInterrupt

  /** Whether the builder was invoked, what it did, the tasks spawned, and the status. */
  datatype Run = Run(build: Option<Build>, tasks: seq<Task>, status: Status)

  const ConnectPanicPrefix: string := "Failed to connect to database: Error executing migration query: "

  /** `main`, with the environment, the DDL template, the connection attempts'
      fates, the migration executor and the simulators' completions (in
      completion order) as inputs. */
  method Startup(opt: Opt, env: Env, ddl: string, attempts: seq<bool>, exec: Executor, completions: seq<Completion>)
    returns (run: Run)
    requires |completions| <= opt.simulators as int
    ensures CheckRatio(opt.readRatio, opt.writeRatio).Fail? <==> run.status.RatioRejected?
    ensures run.build.Some? <==> CheckRatio(opt.readRatio, opt.writeRatio).Pass?
    ensures opt.readRatio as int + opt.writeRatio as int < 0x100 ==>
      (WrappingRatioCheck(opt.readRatio, opt.writeRatio).Fail? <==> run.status.RatioRejected?)
    ensures run.status.RatioRejected? ==> run.build.None? && run.tasks == []
    ensures run.status.RatioRejected? ==> run.status.message == InvalidRatioMessage
    ensures !ParseMigrate(Get(env, "MIGRATE")) && run.build.Some? ==> run.build.value.migration == []
    ensures run.build.Some? ==>
      run.build.value == Builder(ParseMigrate(Get(env, "MIGRATE")), DbConfig(opt), env, ddl, attempts, exec)
    ensures run.build.Some? && run.build.value.outcome.Retrying? ==> run.status == Connecting && run.tasks == []
    ensures run.build.Some? && run.build.value.outcome.MigrationFailed? ==>
      run.status == BuildPanicked(ConnectPanicPrefix + run.build.value.outcome.error) && run.tasks == []
    ensures run.build.Some? && run.build.value.outcome.Connected? ==>
      && |run.tasks| == opt.simulators as int
      && (forall i :: 0 <= i < |run.tasks| ==>
            run.tasks[i] == Task(run.build.value.outcome.session, opt.readRatio, opt.writeRatio))
      && run.status == (match Aggregate(|run.tasks|, completions)
                        case Running => FleetRunning
                        case Failed(e) => FleetFailed(e)
                        case AllSucceeded => AwaitingInterrupt)
  {
    var cfg := DbConfig(opt);
    var ratio := CheckRatio(opt.readRatio, opt.writeRatio);
    if ratio.Fail? {
      return Run(None, [], RatioRejected(ratio.error));
    }
    var migrate := ParseMigrate(Get(env, "MIGRATE"));
    var build := Builder(migrate, cfg, env, ddl, attempts, exec);
    BuilderMigration(migrate, cfg, env, ddl, attempts, exec);
    match build.outcome {
      case Retrying =>
        run := Run(Some(build), [], Connecting);
      case MigrationFailed(e) =>
        run := Run(Some(build), [], BuildPanicked(ConnectPanicPrefix + e));
      case Connected(session) =>
        var tasks := SpawnTasks(opt.simulators, session, opt.readRatio, opt.writeRatio);
        assert forall i :: 0 <= i < |tasks| ==> tasks[i] == Task(session, opt.readRatio, opt.writeRatio);
        var status := match Aggregate(|tasks|, completions)
          case Running => FleetRunning
          case Failed(e) => FleetFailed(e)
          case AllSucceeded => AwaitingInterrupt;
        run := Run(Some(build), tasks, status);
    }
  }
}

=== FILE: text.dfy ===
/**
 * The string operations the startup path applies to configuration and schema
 * text: upper-casing, whitespace trimming, splitting on a separator character,
 * joining, and literal substring replacement.
 */
module Text {

  /** Upper-case mapping of one character. ASCII letters map to their capitals;
      the two non-ASCII letters whose upper case is a single ASCII letter
      (dotless i and long s) are mapped as well; every other character is left as is. */
  function UpperChar(c: char): char {
    if 'a' <= c <= 'z' then (c as int - 32) as char
    else if c == '\U{0131}' then 'I'
    else if c == '\U{017F}' then 'S'
    else c
  }

  function Upper(s: string): (r: string)
    ensures |r| == |s|
    ensures forall i :: 0 <= i < |s| ==> r[i] == UpperChar(s[i])
  {
    seq(|s|, i requires 0 <= i < |s| => UpperChar(s[i]))
  }

  /** ASCII lower-case mapping, used to state case-insensitivity. */
  function LowerChar(c: char): char {
    if 'A' <= c <= 'Z' then (c as int + 32) as char else c
  }

  function Lower(s: string): (r: string)
    ensures |r| == |s|
    ensures forall i :: 0 <= i < |s| ==> r[i] == LowerChar(s[i])
  {
    seq(|s|, i requires 0 <= i < |s| => LowerChar(s[i]))
  }

  /** Upper-casing twice is upper-casing once. */
  lemma UpperIdempotent(s: string)
    ensures Upper(Upper(s)) == Upper(s)
  {
    assert forall i :: 0 <= i < |s| ==> UpperChar(UpperChar(s[i])) == UpperChar(s[i]);
  }

  /** Text made only of capitals and underscores survives a lower/upper round trip. */
  predicate IsUpperName(s: string) {
    forall i :: 0 <= i < |s| ==> ('A' <= s[i] <= 'Z' || s[i] == '_')
  }

  lemma UpperOfLowerName(s: string)
    requires IsUpperName(s)
    ensures Upper(Lower(s)) == s
    ensures Upper(s) == s
  {
    assert forall i :: 0 <= i < |s| ==> UpperChar(LowerChar(s[i])) == s[i];
  }

  /** The characters Rust's `char::is_whitespace` accepts (Unicode White_Space). */
  const WhiteSpace: set<char> := {
    '\t', '\n', '\U{000B}', '\U{000C}', '\r', ' ', '\U{0085}', '\U{00A0}', '\U{1680}',
    '\U{2000}', '\U{2001}', '\U{2002}', '\U{2003}', '\U{2004}', '\U{2005}',
    '\U{2006}', '\U{2007}', '\U{2008}', '\U{2009}', '\U{200A}',
    '\U{2028}', '\U{2029}', '\U{202F}', '\U{205F}', '\U{3000}'}

  predicate IsWhitespace(c: char) {
    c in WhiteSpace
  }

  /** Text made only of whitespace. */
  predicate Blank(u: string) {
    forall k :: 0 <= k < |u| ==> IsWhitespace(u[k])
  }

  /** Drops leading whitespace: the result is a suffix of `s`, everything dropped
      is whitespace, and the result does not start with whitespace. */
  function TrimStart(s: string): (r: string)
    ensures |r| <= |s| && r == s[|s| - |r|..]
    ensures Blank(s[..|s| - |r|])
    ensures |r| > 0 ==> !IsWhitespace(r[0])
    decreases |s|
  {
    if |s| > 0 && IsWhitespace(s[0]) then TrimStart(s[1..]) else s
  }

  /** Drops trailing whitespace: the result is a prefix of `s`, everything dropped
      is whitespace, and the result does not end with whitespace. */
  function TrimEnd(s: string): (r: string)
    ensures |r| <= |s| && r == s[..|r|]
    ensures Blank(s[|r|..])
    ensures |r| > 0 ==> !IsWhitespace(r[|r| - 1])
    decreases |s|
  {
    if |s| > 0 && IsWhitespace(s[|s| - 1]) then TrimEnd(s[..|s| - 1]) else s
  }

  /** `r` is the slice of `s` that starts at `i`, and the text before it is blank. */
  predicate SliceAfterBlank(s: string, i: int, r: string) {
    0 <= i && i + |r| <= |s| && r == s[i..i + |r|] && Blank(s[..i])
  }

  /** Everything in `s` from index `j` on is whitespace. */
  predicate BlankFrom(s: string, j: int) {
    0 <= j <= |s| && Blank(s[j..])
  }

  /** `r` neither starts nor ends with whitespace. */
  predicate Unpadded(r: string) {
    |r| > 0 ==> !IsWhitespace(r[0]) && !IsWhitespace(r[|r| - 1])
  }

  /** Rust's `str::trim`: whitespace removed from both ends. The result is the
      slice of `s` that starts where `TrimStart` stops, the text before it and
      the text after it are blank, and it neither starts nor ends with whitespace. */
  function Trim(s: string): (r: string)
    ensures SliceAfterBlank(s, |s| - |TrimStart(s)|, r)
    ensures BlankFrom(s, |s| - |TrimStart(s)| + |r|)
    ensures Unpadded(r)
  {
    var t := TrimStart(s);
    TrimmedParts(s, t, TrimEnd(t));
    TrailingParts(s, t, TrimEnd(t));
    TrimEnds(s);
    TrimEnd(t)
  }

  lemma TrimEnds(s: string)
    ensures Unpadded(TrimEnd(TrimStart(s)))
  {
    var t := TrimStart(s);
    var r := TrimEnd(t);
    if |r| > 0 {
      assert r[0] == t[0];
    }
  }

  /** What follows a prefix `r` of a suffix `t` of `s` is what follows it in `t`. */
  lemma TrailingParts(s: string, t: string, r: string)
    requires |t| <= |s| && t == s[|s| - |t|..]
    requires |r| <= |t| && Blank(t[|r|..])
    ensures BlankFrom(s, |s| - |t| + |r|)
  {
    assert s[|s| - |t| + |r|..] == t[|r|..];
  }

  /** A prefix `r` of a suffix `t` of `s`, with blank text around it. */
  lemma TrimmedParts(s: string, t: string, r: string)
    requires |t| <= |s| && t == s[|s| - |t|..]
    requires Blank(s[..|s| - |t|])
    requires |r| <= |t| && r == t[..|r|]
    requires Blank(t[|r|..])
    ensures SliceAfterBlank(s, |s| - |t|, r)
  {
    var i := |s| - |t|;
    assert s[i..i + |r|] == r;
  }

  predicate StartsWith(s: string, prefix: string) {
    |prefix| <= |s| && s[..|prefix|] == prefix
  }

  predicate EndsWith(s: string, suffix: string) {
    |suffix| <= |s| && s[|s| - |suffix|..] == suffix
  }

  /** `pat` occurs in `s` starting at position `i`. */
  predicate OccursAt(s: string, pat: string, i: int) {
    0 <= i && i + |pat| <= |s| && s[i..i + |pat|] == pat
  }

  predicate Contains(s: string, pat: string) {
    exists i :: 0 <= i <= |s| && OccursAt(s, pat, i)
  }

  lemma ContainsChar(s: string, c: char)
    ensures Contains(s, [c]) <==> c in s
  {
    if c in s {
      var i :| 0 <= i < |s| && s[i] == c;
      assert OccursAt(s, [c], i);
    }
    if Contains(s, [c]) {
      var i :| 0 <= i <= |s| && OccursAt(s, [c], i);
      assert s[i..i + 1][0] == s[i];
    }
  }

  /** Number of occurrences of `c` in `s`. */
  function Count(s: string, c: char): nat
    decreases |s|
  {
    if |s| == 0 then 0 else (if s[0] == c then 1 else 0) + Count(s[1..], c)
  }

  /** Rust's `str::split` on a single character: the maximal runs between
      separators, including empty ones. The empty string gives one empty fragment. */
  function Split(s: string, sep: char): (r: seq<string>)
    ensures |r| >= 1
    decreases |s|
  {
    if |s| == 0 then [""]
    else
      var rest := Split(s[1..], sep);
      if s[0] == sep then [""] + rest
      else [[s[0]] + rest[0]] + rest[1..]
  }

  /** Concatenation of `parts` with `sep` between neighbours. */
  function Join(parts: seq<string>, sep: char): string
    requires |parts| > 0
    decreases |parts|
  {
    if |parts| == 1 then parts[0] else parts[0] + [sep] + Join(parts[1..], sep)
  }

  predicate NoneContain(parts: seq<string>, c: char) {
    forall i :: 0 <= i < |parts| ==> c !in parts[i]
  }

  /** Splitting yields one fragment more than there are separators. */
  lemma {:induction false} SplitCount(s: string, sep: char)
    ensures |Split(s, sep)| == Count(s, sep) + 1
    decreases |s|
  {
    if |s| > 0 {
      SplitCount(s[1..], sep);
    }
  }

  /** No fragment contains the separator. */
  lemma {:induction false} SplitFragmentsLackSeparator(s: string, sep: char)
    ensures NoneContain(Split(s, sep), sep)
    decreases |s|
  {
    if |s| > 0 {
      SplitFragmentsLackSeparator(s[1..], sep);
      var rest := Split(s[1..], sep);
      if s[0] != sep {
        var r := Split(s, sep);
        assert r[0] == [s[0]] + rest[0];
        forall i | 0 <= i < |r| ensures sep !in r[i] {
          if i > 0 {
            assert r[i] == rest[i];
          }
        }
      }
    }
  }

  /** Joining the fragments with the separator gives back the original text. */
  lemma {:induction false} JoinSplit(s: string, sep: char)
    ensures Join(Split(s, sep), sep) == s
    decreases |s|
  {
    if |s| > 0 {
      JoinSplit(s[1..], sep);
      var rest := Split(s[1..], sep);
      if s[0] == sep {
        assert Split(s, sep)[1..] == rest;
      } else {
        var r := Split(s, sep);
        if |rest| == 1 {
          assert r == [[s[0]] + rest[0]];
        } else {
          assert r[1..] == rest[1..];
          assert Join(rest, sep) == rest[0] + [sep] + Join(rest[1..], sep);
        }
      }
    }
  }

  /** The converse round trip: separator-free parts are recovered by splitting their join. */
  lemma {:induction false} SplitJoin(parts: seq<string>, sep: char)
    requires |parts| > 0
    requires NoneContain(parts, sep)
    ensures Split(Join(parts, sep), sep) == parts
    decreases |parts|
  {
    if |parts| == 1 {
      SplitOfSeparatorFree(parts[0], sep);
    } else {
      SplitJoin(parts[1..], sep);
      SplitPrefixThenSeparator(parts[0], sep, Join(parts[1..], sep));
    }
  }

  /** Text without the separator is a single fragment. */
  lemma {:induction false} SplitOfSeparatorFree(s: string, sep: char)
    requires sep !in s
    ensures Split(s, sep) == [s]
    decreases |s|
  {
    if |s| > 0 {
      SplitOfSeparatorFree(s[1..], sep);
      assert s[0] != sep;
      assert [s[0]] + s[1..] == s;
    }
  }

  /** A separator-free head followed by the separator starts a new fragment. */
  lemma {:induction false} SplitPrefixThenSeparator(head: string, sep: char, tail: string)
    requires sep !in head
    ensures Split(head + [sep] + tail, sep) == [head] + Split(tail, sep)
    decreases |head|
  {
    var s := head + [sep] + tail;
    if |head| == 0 {
      assert s[1..] == tail;
    } else {
      assert s[1..] == head[1..] + [sep] + tail;
      SplitPrefixThenSeparator(head[1..], sep, tail);
      var rest := Split(s[1..], sep);
      assert rest == [head[1..]] + Split(tail, sep);
      assert s[0] == head[0] && head[0] != sep;
      assert Split(s, sep) == [[s[0]] + rest[0]] + rest[1..];
      assert [head[0]] + head[1..] == head;
    }
  }

  /** Appending separator-free text extends only the last fragment. */
  lemma {:induction false} SplitAppend(s: string, t: string, sep: char)
    requires sep !in t
    ensures var a := Split(s, sep);
      Split(s + t, sep) == a[..|a| - 1] + [a[|a| - 1] + t]
    decreases |s|
  {
    if |s| == 0 {
      assert s + t == t;
      SplitOfSeparatorFree(t, sep);
    } else {
      assert (s + t)[1..] == s[1..] + t;
      assert (s + t)[0] == s[0];
      SplitAppend(s[1..], t, sep);
      if s[0] == sep {
        SplitAppendAfterSeparator(s, t, sep);
      } else {
        SplitAppendAfterCharacter(s, t, sep);
      }
    }
  }

  lemma SplitAppendAfterSeparator(s: string, t: string, sep: char)
    requires |s| > 0 && s[0] == sep
    requires var a := Split(s[1..], sep);
      Split(s[1..] + t, sep) == a[..|a| - 1] + [a[|a| - 1] + t]
    ensures var a := Split(s, sep);
      Split(s + t, sep) == a[..|a| - 1] + [a[|a| - 1] + t]
  {
    var a' := Split(s[1..], sep);
    assert (s + t)[1..] == s[1..] + t;
    assert (s + t)[0] == sep;
    var a := Split(s, sep);
    assert a == [""] + a';
    assert a[..|a| - 1] == [""] + a'[..|a'| - 1];
  }

  lemma SplitAppendAfterCharacter(s: string, t: string, sep: char)
    requires |s| > 0 && s[0] != sep
    requires var a := Split(s[1..], sep);
      Split(s[1..] + t, sep) == a[..|a| - 1] + [a[|a| - 1] + t]
    ensures var a := Split(s, sep);
      Split(s + t, sep) == a[..|a| - 1] + [a[|a| - 1] + t]
  {
    var a' := Split(s[1..], sep);
    var b' := Split(s[1..] + t, sep);
    assert (s + t)[1..] == s[1..] + t;
    assert (s + t)[0] == s[0];
    assert Split(s, sep) == [[s[0]] + a'[0]] + a'[1..];
    assert Split(s + t, sep) == [[s[0]] + b'[0]] + b'[1..];
    ExtendFirstThenAppend(s[0], a', b', t);
  }

  /** Sequence bookkeeping for `SplitAppendAfterCharacter`: prefixing the first
      fragment commutes with extending the last one. */
  lemma ExtendFirstThenAppend(c: char, a': seq<string>, b': seq<string>, t: string)
    requires |a'| > 0
    requires b' == a'[..|a'| - 1] + [a'[|a'| - 1] + t]
    ensures var a := [[c] + a'[0]] + a'[1..];
      [[c] + b'[0]] + b'[1..] == a[..|a| - 1] + [a[|a| - 1] + t]
  {
    var n := |a'|;
    var a := [[c] + a'[0]] + a'[1..];
    if n == 1 {
      assert b' == [a'[0] + t];
      assert [c] + (a'[0] + t) == ([c] + a'[0]) + t;
    } else {
      assert b'[0] == a'[0];
      assert b'[1..] == a'[1..n - 1] + [a'[n - 1] + t];
      assert a[..n - 1] == [[c] + a'[0]] + a'[1..n - 1];
      assert a[n - 1] == a'[n - 1];
    }
  }

  /** Rust's `str::replace`: every leftmost, non-overlapping occurrence of `pat`
      in `s`, scanning left to right, is replaced by `rep`. */
  function Replace(s: string, pat: string, rep: string): (r: string)
    requires |pat| > 0
    ensures |rep| == |pat| ==> |r| == |s|
    decreases |s|
  {
    if |s| < |pat| then s
    else if s[..|pat|] == pat then rep + Replace(s[|pat|..], pat, rep)
    else [s[0]] + Replace(s[1..], pat, rep)
  }

  /** Every character of a replacement result comes from the input or from `rep`. */
  lemma {:induction false} ReplaceChars(s: string, pat: string, rep: string, c: char)
    requires |pat| > 0
    requires c in Replace(s, pat, rep)
    ensures c in s || c in rep
    decreases |s|
  {
    if |s| >= |pat| {
      if s[..|pat|] == pat {
        if c !in rep {
          ReplaceChars(s[|pat|..], pat, rep, c);
        }
      } else if c != s[0] {
        ReplaceChars(s[1..], pat, rep, c);
      }
    }
  }

  /** Shares no character with `pat`. */
  predicate Disjoint(rep: string, pat: string) {
    forall i :: 0 <= i < |rep| ==> rep[i] !in pat
  }

  /** When the input starts with the pattern, the result starts with a character of `rep`. */
  lemma ReplaceStartsWithReplacement(s: string, pat: string, rep: string)
    requires |pat| > 0 && |rep| > 0
    requires |s| >= |pat| && s[..|pat|] == pat
    ensures |Replace(s, pat, rep)| > 0 && Replace(s, pat, rep)[0] in rep
  {
    assert Replace(s, pat, rep)[0] == rep[0];
  }

  /** If a replacement result starts with `n` characters none of which come from
      `rep`, then those characters are the input's own first `n` characters. */
  lemma {:induction false} ReplacePrefixUntouched(s: string, pat: string, rep: string, n: nat)
    requires |pat| > 0 && |rep| > 0
    requires n <= |Replace(s, pat, rep)|
    requires forall k :: 0 <= k < n ==> Replace(s, pat, rep)[k] !in rep
    ensures n <= |s| && s[..n] == Replace(s, pat, rep)[..n]
    decreases |s|
  {
    var r := Replace(s, pat, rep);
    if |s| >= |pat| && n > 0 {
      if s[..|pat|] == pat {
        ReplaceStartsWithReplacement(s, pat, rep);
        assert false;
      } else {
        var t := Replace(s[1..], pat, rep);
        assert r == [s[0]] + t;
        forall k | 0 <= k < n - 1 ensures t[k] !in rep {
          assert t[k] == r[k + 1];
        }
        ReplacePrefixUntouched(s[1..], pat, rep, n - 1);
        assert r[..n] == [s[0]] + t[..n - 1];
      }
    }
  }

  lemma OccurrenceStartsWithPatternChar(r: string, pat: string, i: int)
    requires |pat| > 0 && OccursAt(r, pat, i)
    ensures r[i] in pat
  {
    assert r[i] == r[i..i + |pat|][0];
  }

  /** An occurrence of `pat` in `rep + t` must lie inside `t` when `rep`
      shares no character with `pat`. */
  lemma OccurrenceAfterReplacement(rep: string, t: string, pat: string, i: int)
    requires |pat| > 0
    requires Disjoint(rep, pat)
    requires OccursAt(rep + t, pat, i)
    ensures i >= |rep| && OccursAt(t, pat, i - |rep|)
  {
    var r := rep + t;
    if i < |rep| {
      OccurrenceStartsWithPatternChar(r, pat, i);
      assert false;
    }
    assert r[i..i + |pat|] == t[i - |rep|..i - |rep| + |pat|];
  }

  /** An occurrence of `pat` in `[c] + t` at a positive position is one in `t`. */
  lemma OccurrenceAfterChar(c: char, t: string, pat: string, i: int)
    requires OccursAt([c] + t, pat, i) && i > 0
    ensures OccursAt(t, pat, i - 1)
  {
    assert ([c] + t)[i..i + |pat|] == t[i - 1..i - 1 + |pat|];
  }

  /** A non-empty replacement that shares no character with the pattern leaves
      no occurrence of the pattern behind. */
  lemma {:induction false} ReplaceRemovesPattern(s: string, pat: string, rep: string)
    requires |pat| > 0 && |rep| > 0
    requires Disjoint(rep, pat)
    ensures !Contains(Replace(s, pat, rep), pat)
    decreases |s|
  {
    var r := Replace(s, pat, rep);
    if |s| < |pat| {
      forall i | 0 <= i <= |r| ensures !OccursAt(r, pat, i) { }
    } else if s[..|pat|] == pat {
      var t := Replace(s[|pat|..], pat, rep);
      assert r == rep + t;
      ReplaceRemovesPattern(s[|pat|..], pat, rep);
      forall i | 0 <= i <= |r| ensures !OccursAt(r, pat, i) {
        if OccursAt(r, pat, i) {
          OccurrenceAfterReplacement(rep, t, pat, i);
          assert false;
        }
      }
    } else {
      var t := Replace(s[1..], pat, rep);
      assert r == [s[0]] + t;
      ReplaceRemovesPattern(s[1..], pat, rep);
      forall i | 0 <= i <= |r| ensures !OccursAt(r, pat, i) {
        if OccursAt(r, pat, i) {
          if i == 0 {
            forall k | 0 <= k < |pat| ensures r[k] !in rep {
              assert r[k] == pat[k];
            }
            ReplacePrefixUntouched(s, pat, rep, |pat|);
            assert false;
          } else {
            OccurrenceAfterChar(s[0], t, pat, i);
            assert false;
          }
        }
      }
    }
  }

  /** The leftmost occurrence is replaced first: when `a` followed by all but
      the last character of `pat` holds no occurrence, `a` is kept, the `pat`
      after it becomes `rep`, and replacement carries on after it. */
  lemma {:induction false} ReplaceAtFirstOccurrence(a: string, pat: string, b: string, rep: string)
    requires |pat| > 0
    requires !Contains(a + pat[..|pat| - 1], pat)
    ensures Replace(a + pat + b, pat, rep) == a + rep + Replace(b, pat, rep)
    decreases |a|
  {
    var s := a + pat + b;
    if |a| == 0 {
      assert s == pat + b;
      assert s[..|pat|] == pat && s[|pat|..] == b;
    } else {
      var w := a + pat[..|pat| - 1];
      assert w[..|pat|] == s[..|pat|];
      assert !OccursAt(w, pat, 0);
      assert s[..|pat|] != pat;
      var w' := a[1..] + pat[..|pat| - 1];
      assert w' == w[1..];
      forall i | 0 <= i <= |w'|
        ensures !OccursAt(w', pat, i)
      {
        ShiftedOccurrence(w, pat, i);
      }
      assert s[1..] == a[1..] + pat + b;
      ReplaceAtFirstOccurrence(a[1..], pat, b, rep);
      assert a + rep + Replace(b, pat, rep) == [a[0]] + (a[1..] + rep + Replace(b, pat, rep));
    }
  }

  /** An occurrence in the tail of `w` is an occurrence in `w`, one later. */
  lemma ShiftedOccurrence(w: string, pat: string, i: int)
    requires |w| > 0 && 0 <= i
    ensures OccursAt(w[1..], pat, i) <==> OccursAt(w, pat, i + 1)
  {
    if i + |pat| <= |w| - 1 {
      assert w[1..][i..i + |pat|] == w[i + 1..i + 1 + |pat|];
    }
  }

  /** Replacing a pattern that does not occur changes nothing. */
  lemma {:induction false} ReplaceAbsent(s: string, pat: string, rep: string)
    requires |pat| > 0
    requires !Contains(s, pat)
    ensures Replace(s, pat, rep) == s
    decreases |s|
  {
    if |s| >= |pat| {
      assert !OccursAt(s, pat, 0);
      forall i | OccursAt(s[1..], pat, i) ensures false {
        assert s[1..][i..i + |pat|] == s[i + 1..i + 1 + |pat|];
        assert OccursAt(s, pat, i + 1);
      }
      ReplaceAbsent(s[1..], pat, rep);
    }
  }

  /** Replacing one character by one character works position by position. */
  lemma {:induction false} ReplaceCharPointwise(s: string, c: char, d: char)
    ensures |Replace(s, [c], [d])| == |s|
    ensures forall i :: 0 <= i < |s| ==>
      Replace(s, [c], [d])[i] == (if s[i] == c then d else s[i])
    decreases |s|
  {
    if |s| > 0 {
      ReplaceCharPointwise(s[1..], c, d);
      var t := Replace(s[1..], [c], [d]);
      if s[..1] == [c] {
        assert Replace(s, [c], [d]) == [d] + t;
      } else {
        assert Replace(s, [c], [d]) == [s[0]] + t;
      }
    }
  }
}

=== FILE: wrappers.dfy ===
/** Failure-carrying datatypes shared by the rest of the model. */
module Wrappers {

  /** An optional value; `None` stands for an unset environment variable or a missing map key. */
  datatype Option<+T> = None | Some(value: T) {

    /** The carried value, or `default` when there is none. */
    function GetOr(default: T): T {
      match this
      case Some(v) => v
      case None => default
    }
  }

  /** The outcome of an action that yields nothing on success. */
  datatype Outcome<+E> = Pass | Fail(error: E)

  /** A value on success, an error otherwise. */
  datatype Result<+R, +E> = Success(value: R) | Failure(error: E)
}
